=== FILE: README.md ===
# Mastermind: scorer and automated code breaker

A functional Dafny model of the game logic of a console Mastermind program
(`mastermind.rb`): a human and an automated player take turns as code maker
and code breaker; a code is four pegs drawn from six colours.

What is modelled:

- **Colours** (`Colors`): the six-colour palette and the case-insensitive
  lookup of a colour by name, which fails (`None`) on an unknown name.
  A peg carries nothing but its colour, so pegs are represented by their
  colour.
- **Scoring** (`Boards`): for each attempt position, a black key when the
  attempt and the code agree there; otherwise a white key when the colour
  occurs in the code more often than it is matched exactly across the whole
  attempt; otherwise no key. Feedback stays aligned with the attempt
  positions, because the automated player learns from that alignment.
  The white test is a per-colour surplus test, not a cap on the number of
  white keys: code white-red-red-red against attempt red-white-white-white
  earns four white keys, three of them for a colour the code holds once
  (`SurplusNotCappedExample`). The model follows the program here.
- **Board** (`Boards`): the record of the attempts and the guess counter,
  colour-by-colour code equality, and the two round-end tests (breaker has
  found the code; breaker has used all twelve attempts).
- **Automated player** (`Guesser`): its memory (a pinned colour or nothing
  per position, and a list of colours known to be in the code), how it
  builds an attempt from that memory, and how it updates the memory from
  the feedback. The program's random choices are an explicit argument
  `draws`, one colour per position, constrained by `Fits`: where the
  program pops a random waiting colour, the draw must be one of the waiting
  colours; elsewhere any palette colour is allowed.
- **Match verdict** (`Game`): the human wins with a strict majority of the
  rounds, else the automated player does, else a draw once every round has
  been played.

The central invariant is `Guesser.Consistent`: every pinned colour is the
secret's colour at that position and every waiting colour occurs in the
secret. A flushed memory satisfies it, one attempt of the automated player
keeps it, and under it every pinned position scores black on every later
attempt of the round.

The program, however, never calls `flush_memory`. Each round gets a new
board (mastermind.rb:290), but the automated player stays the same object
(mastermind.rb:204), so its pins and waiting colours carry over from
earlier rounds and earlier secrets. `Consistent` is therefore guaranteed
only in the automated player's first round as code breaker. From then on
a pin left from an old secret that disagrees with the new one never scores
black and is never replaced (`Guesser.StalePinNeverScoresBlack`). When the
automated player is code maker, the same leftover memory also builds its
secret (mastermind.rb:292 reaches the branch at mastermind.rb:90-100).
See "## Findings".

Files: `wrappers.dfy` (`Option`), `seqs.dfy` (counting and single-element
removal), `rules.dfy` (code length 4, 12 attempts), `colors.dfy`,
`board.dfy`, `ai.dfy`, `game.dfy`.

## Model

| member | source | states |
|---|---|---|
| `Colors.FromString` | mastermind.rb:5-13 | the lookup succeeds exactly when the lower-cased input is the name of some colour, and then returns that colour and no other |
| `Colors.Select` | mastermind.rb:6 | the selection over the palette returns a listed colour carrying the name, and fails only when no listed colour carries it |
| `Colors.NamesDistinct` | mastermind.rb:3 | the six colour names are pairwise different, so at most one colour matches a name |
| `Colors.FromStringOfName` | mastermind.rb:5-13 | any spelling of a colour's name that lower-cases to it, in any mix of cases, finds that colour |
| `Colors.FromStringUpperCase` | mastermind.rb:6 | an all-capitals name is found |
| `Colors.FromStringMixedCase` | mastermind.rb:6 | a mixed-case name is found |
| `Colors.FromStringKelvinSign` | mastermind.rb:6 | the Kelvin sign lower-cases to k, so it spells the name black |
| `Colors.FromStringUnknown` | mastermind.rb:7-9 | a name outside the palette is refused |
| `Seqs.Count` | mastermind.rb:163 | the running count of a value equals its multiplicity in the sequence |
| `Seqs.RemoveOne` | mastermind.rb:93 | taking one waiting colour out removes exactly one copy of it and nothing else |
| `Boards.ExactMatches` | mastermind.rb:141-149 | the running count equals the number of positions where attempt and code both hold the colour |
| `Boards.KeyAt` | mastermind.rb:160-172 | the key at one position is black exactly when the colours agree there, and white only for a colour present in the code |
| `Boards.Feedback` | mastermind.rb:157-173 | one key per attempt position; black exactly where the colours agree; white exactly where they disagree and the colour's multiplicity in the code exceeds its exact matches over the whole attempt |
| `Boards.ExactMatchesBounded` | mastermind.rb:141-149 | a colour is never matched exactly more often than it occurs in the code |
| `Boards.ExactMatchesBoundedByPrefix` | mastermind.rb:141-149 | a colour is never matched exactly more often than it occurs in the part of the code the attempt covers |
| `Boards.AbsentColourMisses` | mastermind.rb:162-172 | a colour absent from the code earns no key |
| `Boards.SameColourSameKey` | mastermind.rb:162-169 | positions without a black key that hold the same colour receive the same key |
| `Boards.AllMatchedCounts` | mastermind.rb:141-149 | if every occurrence of a colour in the code is matched, its exact matches equal its occurrences |
| `Boards.WhiteMeansUnmatchedOccurrence` | mastermind.rb:162-169 | a white key implies the colour sits in the code at a position the attempt got wrong |
| `Boards.AllBlackIffEqual` | mastermind.rb:157-161 | an attempt of the code's length earns only black keys if and only if it is the code |
| `Boards.DisjointAllMiss` | mastermind.rb:162-172 | an attempt sharing no colour with the code earns no key anywhere |
| `Boards.DuplicateColourExample` | mastermind.rb:151-156 | code white-white-black-black against white-white-white-black gives black, black, nothing, black |
| `Boards.MatchedColourExample` | mastermind.rb:157-173 | code white-white-black-black against white-black-black-black gives black, nothing, black, black |
| `Boards.SurplusNotCappedExample` | mastermind.rb:162-169 | code white-red-red-red against red-white-white-white gives four white keys |
| `Boards.CodesEqual` | mastermind.rb:178-184 | the running conjunction holds exactly when the colours agree at every position of the first code, i.e. the first code is a prefix of the second |
| `Boards.Record` | mastermind.rb:119-122 | recording appends the attempt, keeps earlier attempts and the code, and keeps the counter one ahead of the attempts |
| `Boards.NewBoard` | mastermind.rb:63-68 | a new board holds the given code, has no attempts, and its counter is one ahead of them |
| `Boards.BreakerVictory` | mastermind.rb:186-188 | the breaker has won exactly when some attempt agrees with the code at each of its positions; with full-length attempts, exactly when the code is among them |
| `Boards.MakerVictory` | mastermind.rb:190-192 | on a board whose counter tracks the attempts, the maker has won exactly when twelve or more attempts were made |
| `Guesser.FlushMemory` | mastermind.rb:52-55 | the flushed memory has four positions, none pinned, and no waiting colours |
| `Guesser.Fits` | mastermind.rb:92-95 | the possible outcomes of the random calls: one draw per position, a popped draw being one of the colours waiting at that moment; with nothing waiting, every choice of palette colours is possible |
| `Guesser.Fill` | mastermind.rb:90-100 | the attempt has one colour per memory position, reuses every pinned colour, and puts the drawn colour at every unpinned position |
| `Guesser.FillConsumes` | mastermind.rb:90-100 | the waiting colours before the attempt are exactly those left after it plus the ones drawn at the first unpinned positions, one per position |
| `Guesser.FillKeepsEmpty` | mastermind.rb:92-96 | with no colours waiting, building an attempt leaves the waiting list empty |
| `Guesser.FillConsumesCount` | mastermind.rb:90-100 | one waiting colour is consumed per unpinned position while any are left |
| `Guesser.MakeCode` | mastermind.rb:85-100 | the attempt reuses pins and draws elsewhere; the pins are untouched; the waiting colours shrink by one per unpinned position while any are left, and only by the colours used |
| `Guesser.Learn` | mastermind.rb:127-136 | a black key pins the attempt's colour at its position; other positions keep their pin or its absence; the waiting list keeps its old contents as a prefix and grows by the number of white keys |
| `Guesser.LearnKey` | mastermind.rb:129-135 | a black key pins the attempt's colour at its own position and changes no other pin; a white key appends that colour to the waiting list; no key changes nothing |
| `Guesser.LearnAppendsWhites` | mastermind.rb:131-132 | the waiting list gains exactly one copy of the colour of each white-keyed position and nothing else |
| `Guesser.LearnAppendsWhiteColours` | mastermind.rb:127-136 | learning appends to the waiting list exactly the colours of the white-keyed positions, in position order, after its old contents |
| `Guesser.WhiteColoursCount` | mastermind.rb:131-132 | each colour is appended once per white-keyed position that holds it |
| `Guesser.NothingWaitingFits` | mastermind.rb:92-96 | with no colours waiting, every choice of palette colours is a possible draw |
| `Guesser.FreshGuessIsDraws` | mastermind.rb:90-100 | a player with a flushed memory guesses exactly its random choices and its memory stays flushed |
| `Guesser.FreshMemoryConsistent` | mastermind.rb:52-55 | a flushed memory is consistent with any four-peg secret |
| `Guesser.LearnKeepsConsistent` | mastermind.rb:127-136 | learning from the true feedback keeps pins equal to the secret and waiting colours inside the secret |
| `Guesser.MakeCodeKeepsConsistent` | mastermind.rb:90-100 | building an attempt keeps the memory consistent with the secret |
| `Guesser.PinnedScoresBlack` | mastermind.rb:90-100 | under a consistent memory, every pinned position of the next attempt scores black |
| `Guesser.AIAttempt` | mastermind.rb:118-139 | the attempt the player built is appended after the earlier ones, the counter stays in step, the feedback is the score of that attempt, every black key pins the secret's colour, every other position keeps its pin, and the waiting list keeps, as a prefix, what building the attempt left, and grows by the number of white keys |
| `Guesser.AIAttemptKeepsConsistent` | mastermind.rb:118-139 | across an automated attempt a consistent memory stays consistent, and its pinned positions score black and stay pinned |
| `Guesser.StalePinNeverScoresBlack` | mastermind.rb:133-134 | a pin that disagrees with the current secret scores no black key and stays pinned |
| `Guesser.BrokenAtOncePinsAll` | mastermind.rb:127-136 | a flushed player whose draws are a four-peg code scores four blacks against it, pins every position to that code's colour, and leaves nothing waiting |
| `Guesser.AbsentPinsLearnNothing` | mastermind.rb:90-100 | when every position is pinned to a colour missing from the code and nothing waits, the attempt is the pins, every key is a miss, and the memory is unchanged |
| `Guesser.PinnedRedRepeats` | mastermind.rb:118-139 | a player pinned to red everywhere, on a fresh board whose code has no red, records red-red-red-red as its only attempt, earns four misses, and keeps its memory |
| `Guesser.SolvedRoundPinsAll` | mastermind.rb:127-136 | breaking red-red-red-red at the first attempt pins every position to red and leaves nothing waiting |
| `Guesser.PinnedRedMakesReds` | mastermind.rb:90-100 | a player pinned to red everywhere, as code maker, builds the secret red-red-red-red whatever it draws and keeps its memory |
| `Guesser.StaleMemoryReplaysOldSecret` | mastermind.rb:90-100 | with every position pinned to red, against green-green-green-green the player guesses red-red-red-red whatever it draws, earns no key, and its memory is unchanged |
| `Guesser.FlushedRoundConsistent` | mastermind.rb:52-55 | a round started from a flushed memory stays consistent with its secret after the first attempt |
| `Guesser.FlushedRoundCanSolve` | mastermind.rb:52-55 | from a flushed memory, drawing the secret green-green-green-green breaks it |
| `Game.GameVictory` | mastermind.rb:250-266 | the human wins with a strict majority of the rounds; otherwise the automated player wins with one; otherwise it is a draw exactly when the scores add up to the rounds |
| `Game.DrawIsEvenSplit` | mastermind.rb:259-262 | a draw means an even number of rounds split evenly |
| `Game.AllRoundsPlayedIsOver` | mastermind.rb:250-266 | once the scores add up to the rounds, the match is over |
| `Game.EarlyEndNeedsMajority` | mastermind.rb:250-266 | before every round is played, the match is over exactly when one player holds a strict majority |

## Left out

- Console input and output: `pick_colors` and its re-prompting, `print_pegs`, `print_score`, `breaker_or_maker`, `set_rounds`, `set_human`, and the "Invalid color!" message; they only read, validate or print.
- The human branch of `make_code`: it reads colours from the console.
- `sleep` and `$stdout.flush` in `make_code`: pacing only.
- The `main` loop, `Player`/`AI` score bookkeeping and `swap_players`, which only exchanges the code maker and the code breaker: turn orchestration driven by user input.
- The `@responses` log written by `provide_feedback`: scoring is a pure function here.
- The random number generator behind `sample` and `shuffle!`: its choices are the `draws` argument; no distribution is modelled, so neither is the chance that the automated player breaks a code within twelve attempts.
- Colors.FromString: the raised `ArgumentError` is `None`. Lower-casing is modelled for the ASCII capitals and the Kelvin sign only, the one other character whose lower-case form is a letter of a colour name; every other character fails to match either way.
- Guesser.MakeCode: `shuffle!` followed by `pop` is modelled as removing the drawn colour's first occurrence; the multiset of waiting colours is exact, the order of those left behind is not modelled (every later pop shuffles first, and only membership is read).
- Code lengths: `Feedback`, `ExactMatches`, `KeyAt`, `CodesEqual` and `BreakerVictory` require an attempt no longer than the code. On a longer one `provide_feedback` raises `NoMethodError` at mastermind.rb:160. `exact_matches` (mastermind.rb:144) and `codes_equal` (mastermind.rb:181) reach the missing peg only when the left side of `&&` holds, and otherwise return normally. No caller passes such lengths: every code and attempt has four pegs.
- Guesser.Learn: requires the feedback to be no longer than the pinned-colour list; the program would grow the list, but the automated player's feedback always has its length.

## Findings

| source | as written | input that shows it | evidently intended | confidence | as-written member | corrected member |
|---|---|---|---|---|---|---|
| mastermind.rb:289-292 | a new round builds a new board but never calls `flush_memory` (mastermind.rb:52-55), so the automated player keeps its pins and waiting colours from earlier secrets | in a five-round match (so the match cannot end before round 3, mastermind.rb:250-266): round 1: the player breaks red-red-red-red at once and pins every position to red; round 2: roles swap (mastermind.rb:299, 305), and as code maker its pins make the secret red-red-red-red while the human's attempts leave its memory alone; round 3, secret green-green-green-green: it guesses red-red-red-red on every attempt, earns no key and learns nothing, so it loses the round whatever it draws | the memory is flushed at the start of each round, so it is consistent with the round's secret and pins score black | high (not executed) | `Guesser.StaleMemoryReplaysOldSecret` | `Guesser.FlushedRoundConsistent` |

=== FILE: ai.dfy ===
/** The automated code breaker: its memory (class `AI`), how it builds an
    attempt from that memory (the AI branch of `Board#make_code`) and how
    it learns from the feedback (the AI branch of `Board#make_attempt`).
    The random choices of the program are an explicit argument `draws`,
    one colour per position. */
module Guesser {
  import opened Wrappers
  import opened Seqs
  import opened Rules
  import opened Boards

  /** Pinned colours per position, and colours known to be in the code
      somewhere, waiting to be placed. */
  datatype Memory = Memory(bestGuess: seq<Option<Color>>, mustInclude: seq<Color>)

  /** The memory of a new player, and after `flush_memory`. */
  function FlushMemory(): (m: Memory)
    ensures |m.bestGuess| == CodeLength
    ensures forall i :: 0 <= i < |m.bestGuess| ==> m.bestGuess[i].None?
    ensures |m.mustInclude| == 0
  {
    Memory(seq(CodeLength, _ => None), [])
  }

  /** Whether `draws` are choices the program's random calls can make:
      at an unpinned position taken while colours wait to be placed, the
      choice is one of the waiting colours; elsewhere any colour of the
      palette may be drawn. */
  predicate Fits(best: seq<Option<Color>>, must: seq<Color>, draws: seq<Color>): (ok: bool)
    ensures ok ==> |draws| == |best|
    ensures |must| == 0 && |draws| == |best| ==> ok
    decreases |best|
  {
    && |draws| == |best|
    && (|best| == 0 ||
        if best[0].Some? then Fits(best[1..], must, draws[1..])
        else if |must| > 0 then
          draws[0] in must && Fits(best[1..], RemoveOne(must, draws[0]), draws[1..])
        else Fits(best[1..], must, draws[1..]))
  }

  /** The choices made at the first `k` unpinned positions. */
  function Taken(best: seq<Option<Color>>, draws: seq<Color>, k: nat): (t: seq<Color>)
    requires |draws| == |best|
    ensures |t| == Min(Count(best, None), k)
    decreases |best|
  {
    if |best| == 0 then []
    else
      assert multiset(best) == multiset{best[0]} + multiset(best[1..]) by {
        assert best == [best[0]] + best[1..];
      }
      if k == 0 then []
      else if best[0].None? then [draws[0]] + Taken(best[1..], draws[1..], k - 1)
      else Taken(best[1..], draws[1..], k)
  }

  /** Builds the attempt position by position, left to right: a pinned
      colour is reused; an unpinned position takes one of the waiting
      colours out of `must` while there are any, and a palette colour
      otherwise. Returns the attempt and what is left of `must`. */
  function Fill(best: seq<Option<Color>>, must: seq<Color>, draws: seq<Color>)
    : (r: (Code, seq<Color>))
    requires Fits(best, must, draws)
    ensures |r.0| == |best|
    ensures forall i :: 0 <= i < |best| && best[i].Some? ==> r.0[i] == best[i].value
    ensures forall i :: 0 <= i < |best| && best[i].None? ==> r.0[i] == draws[i]
    decreases |best|
  {
    if |best| == 0 then ([], must)
    else
      match best[0]
      case Some(c) =>
        var rest := Fill(best[1..], must, draws[1..]);
        ([c] + rest.0, rest.1)
      case None =>
        if |must| > 0 then
          var rest := Fill(best[1..], RemoveOne(must, draws[0]), draws[1..]);
          ([draws[0]] + rest.0, rest.1)
        else
          var rest := Fill(best[1..], must, draws[1..]);
          ([draws[0]] + rest.0, rest.1)
  }

  /** Each unpinned position consumes one waiting colour while any are
      left, and the colour it consumes is the one it is given. */
  lemma {:induction false} FillConsumes(best: seq<Option<Color>>, must: seq<Color>, draws: seq<Color>)
    requires Fits(best, must, draws)
    ensures multiset(must) == multiset(Fill(best, must, draws).1) + multiset(Taken(best, draws, |must|))
    decreases |best|
  {
    if |best| == 0 {
    } else if best[0].Some? {
      FillConsumes(best[1..], must, draws[1..]);
    } else if |must| > 0 {
      var must' := RemoveOne(must, draws[0]);
      FillConsumes(best[1..], must', draws[1..]);
      var left := Fill(best[1..], must', draws[1..]).1;
      var rest := Taken(best[1..], draws[1..], |must'|);
      assert Fill(best, must, draws).1 == left;
      assert Taken(best, draws, |must|) == [draws[0]] + rest;
      calc {
        multiset(must);
        multiset(must') + multiset{draws[0]};
        multiset(left) + multiset(rest) + multiset{draws[0]};
        multiset(left) + multiset([draws[0]] + rest);
      }
    } else {
      FillKeepsEmpty(best, must, draws);
    }
  }

  /** Once no colours wait, none are created. */
  lemma {:induction false} FillKeepsEmpty(best: seq<Option<Color>>, must: seq<Color>, draws: seq<Color>)
    requires Fits(best, must, draws) && |must| == 0
    ensures Fill(best, must, draws).1 == must
    decreases |best|
  {
    if |best| > 0 {
      FillKeepsEmpty(best[1..], must, draws[1..]);
    }
  }

  /** As many waiting colours are consumed as there are unpinned
      positions, or all of them if there are fewer. */
  lemma {:induction false} FillConsumesCount(best: seq<Option<Color>>, must: seq<Color>, draws: seq<Color>)
    requires Fits(best, must, draws)
    ensures |Fill(best, must, draws).1| == |must| - Min(Count(best, None), |must|)
  {
    FillConsumes(best, must, draws);
    assert |Fill(best, must, draws).1| + |Taken(best, draws, |must|)| == |must| by {
      var left := Fill(best, must, draws).1;
      var taken := Taken(best, draws, |must|);
      assert |multiset(must)| == |multiset(left)| + |multiset(taken)|;
    }
  }

  /** One attempt of the automated player and its memory afterwards: the
      pins are untouched, the colours used are gone from `mustInclude`. */
  datatype Turn = Turn(attempt: Code, memory: Memory)

  function MakeCode(m: Memory, draws: seq<Color>): (t: Turn)
    requires Fits(m.bestGuess, m.mustInclude, draws)
    ensures |t.attempt| == |m.bestGuess|
    ensures forall i :: 0 <= i < |m.bestGuess| ==>
              t.attempt[i] == (if m.bestGuess[i].Some? then m.bestGuess[i].value else draws[i])
    ensures t.memory.bestGuess == m.bestGuess
    ensures |t.memory.mustInclude|
         == |m.mustInclude| - Min(Count(m.bestGuess, None), |m.mustInclude|)
    ensures multiset(t.memory.mustInclude) <= multiset(m.mustInclude)
    ensures multiset(m.mustInclude)
         == multiset(t.memory.mustInclude)
          + multiset(Taken(m.bestGuess, draws, |m.mustInclude|))
  {
    FillConsumes(m.bestGuess, m.mustInclude, draws);
    FillConsumesCount(m.bestGuess, m.mustInclude, draws);
    var r := Fill(m.bestGuess, m.mustInclude, draws);
    Turn(r.0, m.(mustInclude := r.1))
  }

  /** The positions among the first `|fb|` that got a white key and hold
      colour `c` in the attempt. */
  ghost function WhiteSlots(attempt: Code, fb: seq<Key>, c: Color): set<int>
    requires |fb| <= |attempt|
  {
    set i | 0 <= i < |fb| && fb[i] == White && attempt[i] == c
  }

  /** The memory after the feedback `fb` for `attempt`, key by key: a black
      key pins the attempt's colour to its position, a white key appends the
      colour to `mustInclude`, no key changes nothing. */
  function Learn(m: Memory, attempt: Code, fb: seq<Key>): (r: Memory)
    requires |fb| <= |attempt| && |fb| <= |m.bestGuess|
    ensures |r.bestGuess| == |m.bestGuess|
    ensures forall i :: 0 <= i < |fb| ==>
              r.bestGuess[i] == (if fb[i] == Black then Some(attempt[i]) else m.bestGuess[i])
    ensures forall i :: |fb| <= i < |m.bestGuess| ==> r.bestGuess[i] == m.bestGuess[i]
    ensures |r.mustInclude| == |m.mustInclude| + Count(fb, White)
    ensures r.mustInclude[..|m.mustInclude|] == m.mustInclude
    decreases |fb|
  {
    if |fb| == 0 then m
    else LearnKey(Learn(m, attempt, fb[..|fb| - 1]), attempt, |fb| - 1, fb[|fb| - 1])
  }

  /** What the key `k` for position `i` of `attempt` teaches. */
  function LearnKey(m: Memory, attempt: Code, i: nat, k: Key): (r: Memory)
    requires i < |attempt| && i < |m.bestGuess|
    ensures k == Black ==> r.bestGuess == m.bestGuess[i := Some(attempt[i])]
    ensures k != Black ==> r.bestGuess == m.bestGuess
    ensures k == White ==> r.mustInclude == m.mustInclude + [attempt[i]]
    ensures k != White ==> r.mustInclude == m.mustInclude
  {
    match k
    case Miss => m
    case White => m.(mustInclude := m.mustInclude + [attempt[i]])
    case Black => m.(bestGuess := m.bestGuess[i := Some(attempt[i])])
  }

  /** `mustInclude` grows by one copy of the colour of each white key and
      by nothing else. */
  lemma LearnAppendsWhites(m: Memory, attempt: Code, fb: seq<Key>, c: Color)
    requires |fb| <= |attempt| && |fb| <= |m.bestGuess|
    ensures multiset(Learn(m, attempt, fb).mustInclude)[c]
         == multiset(m.mustInclude)[c] + |WhiteSlots(attempt, fb, c)|
  {
    var w := WhiteColours(attempt, fb);
    assert Learn(m, attempt, fb).mustInclude == m.mustInclude + w by {
      LearnAppendsWhiteColours(m, attempt, fb);
    }
    WhiteColoursCount(attempt, fb, c);
  }

  /** The colours of the white-keyed positions, in position order. */
  function WhiteColours(attempt: Code, fb: seq<Key>): (w: seq<Color>)
    requires |fb| <= |attempt|
    ensures |w| == Count(fb, White)
  {
    if |fb| == 0 then []
    else
      var i := |fb| - 1;
      WhiteColours(attempt, fb[..i]) + (if fb[i] == White then [attempt[i]] else [])
  }

  /** Learning appends exactly the white-keyed colours, in order. */
  lemma {:induction false} LearnAppendsWhiteColours(m: Memory, attempt: Code, fb: seq<Key>)
    requires |fb| <= |attempt| && |fb| <= |m.bestGuess|
    ensures Learn(m, attempt, fb).mustInclude == m.mustInclude + WhiteColours(attempt, fb)
    decreases |fb|
  {
    if |fb| > 0 {
      var i := |fb| - 1;
      var before := WhiteColours(attempt, fb[..i]);
      var prev := Learn(m, attempt, fb[..i]).mustInclude;
      assert prev == m.mustInclude + before by {
        LearnAppendsWhiteColours(m, attempt, fb[..i]);
      }
      if fb[i] == White {
        assert Learn(m, attempt, fb).mustInclude == prev + [attempt[i]] by {
          LearnLastKey(m, attempt, fb);
        }
        assert WhiteColours(attempt, fb) == before + [attempt[i]];
        assert (m.mustInclude + before) + [attempt[i]] == m.mustInclude + (before + [attempt[i]]);
      } else {
        assert Learn(m, attempt, fb).mustInclude == prev by {
          LearnLastKey(m, attempt, fb);
        }
        assert WhiteColours(attempt, fb) == before;
      }
    }
  }

  /** Each colour occurs among the white-keyed colours once per white-keyed
      position holding it. */
  lemma {:induction false} WhiteColoursCount(attempt: Code, fb: seq<Key>, c: Color)
    requires |fb| <= |attempt|
    ensures multiset(WhiteColours(attempt, fb))[c] == |WhiteSlots(attempt, fb, c)|
    decreases |fb|
  {
    if |fb| > 0 {
      var i := |fb| - 1;
      var before := WhiteColours(attempt, fb[..i]);
      var k := if fb[i] == White && attempt[i] == c then 1 else 0;
      assert multiset(before)[c] == |WhiteSlots(attempt, fb[..i], c)| by {
        WhiteColoursCount(attempt, fb[..i], c);
      }
      assert |WhiteSlots(attempt, fb, c)| == |WhiteSlots(attempt, fb[..i], c)| + k by {
        WhiteSlotsStep(attempt, fb, c);
      }
      if fb[i] == White {
        assert WhiteColours(attempt, fb) == before + [attempt[i]];
        assert multiset(before + [attempt[i]]) == multiset(before) + multiset{attempt[i]};
      } else {
        assert WhiteColours(attempt, fb) == before;
      }
    }
  }

  /** The last key either appends its colour to `mustInclude` (white) or
      leaves it as it was. */
  lemma LearnLastKey(m: Memory, attempt: Code, fb: seq<Key>)
    requires 0 < |fb| <= |attempt| && |fb| <= |m.bestGuess|
    ensures fb[|fb| - 1] == White ==>
              (Learn(m, attempt, fb).mustInclude
               == Learn(m, attempt, fb[..|fb| - 1]).mustInclude + [attempt[|fb| - 1]])
    ensures fb[|fb| - 1] != White ==>
              Learn(m, attempt, fb).mustInclude == Learn(m, attempt, fb[..|fb| - 1]).mustInclude
  {
    var i := |fb| - 1;
    var prev := Learn(m, attempt, fb[..i]);
    assert Learn(m, attempt, fb) == LearnKey(prev, attempt, i, fb[i]);
  }

  lemma WhiteSlotsStep(attempt: Code, fb: seq<Key>, c: Color)
    requires 0 < |fb| <= |attempt|
    ensures |WhiteSlots(attempt, fb, c)|
         == |WhiteSlots(attempt, fb[..|fb| - 1], c)|
          + (if fb[|fb| - 1] == White && attempt[|fb| - 1] == c then 1 else 0)
  {
    var i := |fb| - 1;
    var before := WhiteSlots(attempt, fb[..i], c);
    assert i !in before;
    if fb[i] == White && attempt[i] == c {
      assert WhiteSlots(attempt, fb, c) == before + {i};
    } else {
      assert WhiteSlots(attempt, fb, c) == before;
    }
  }

  /** With no colours waiting, every choice of palette colours is possible:
      the waiting list `[]` instance of `Fits`'s own contract. */
  lemma NothingWaitingFits(best: seq<Option<Color>>, draws: seq<Color>)
    requires |draws| == |best|
    ensures Fits(best, [], draws)
  {
  }

  /** A player with a fresh memory guesses exactly its random choices. */
  lemma FreshGuessIsDraws(draws: seq<Color>)
    requires |draws| == CodeLength
    ensures Fits(FlushMemory().bestGuess, FlushMemory().mustInclude, draws)
    ensures MakeCode(FlushMemory(), draws).attempt == draws
    ensures MakeCode(FlushMemory(), draws).memory == FlushMemory()
  {
    NothingWaitingFits(FlushMemory().bestGuess, draws);
  }

  /** What the memory holds is true of the secret: every pinned colour is
      the secret's colour at that position, and every waiting colour
      occurs in the secret. */
  predicate Consistent(m: Memory, secret: Code) {
    && |m.bestGuess| == |secret|
    && (forall i :: 0 <= i < |secret| && m.bestGuess[i].Some? ==> m.bestGuess[i].value == secret[i])
    && (forall c :: c in m.mustInclude ==> c in secret)
  }

  lemma FreshMemoryConsistent(secret: Code)
    requires |secret| == CodeLength
    ensures Consistent(FlushMemory(), secret)
  {
  }

  /** Learning from the true feedback keeps the memory consistent. */
  lemma LearnKeepsConsistent(m: Memory, secret: Code, attempt: Code)
    requires Consistent(m, secret) && |attempt| == |secret|
    ensures Consistent(Learn(m, attempt, Feedback(secret, attempt)), secret)
  {
    var fb := Feedback(secret, attempt);
    var r := Learn(m, attempt, fb);
    forall c | c in r.mustInclude
      ensures c in secret
    {
      LearnAppendsWhites(m, attempt, fb, c);
      if c !in m.mustInclude {
        var i :| i in WhiteSlots(attempt, fb, c);
      }
    }
  }

  /** Building an attempt keeps the memory consistent. */
  lemma MakeCodeKeepsConsistent(m: Memory, secret: Code, draws: seq<Color>)
    requires Consistent(m, secret) && Fits(m.bestGuess, m.mustInclude, draws)
    ensures Consistent(MakeCode(m, draws).memory, secret)
  {
    var left := MakeCode(m, draws).memory.mustInclude;
    forall c | c in left
      ensures c in secret
    {
      assert multiset(left)[c] > 0;
    }
  }

  /** A pinned position of a consistent memory always scores black. */
  lemma PinnedScoresBlack(m: Memory, secret: Code, draws: seq<Color>, i: nat)
    requires Consistent(m, secret) && Fits(m.bestGuess, m.mustInclude, draws)
    requires i < |m.bestGuess| && m.bestGuess[i].Some?
    ensures Feedback(secret, MakeCode(m, draws).attempt)[i] == Black
  {
  }

  /** The state of a round after one attempt of the automated player. */
  datatype Step = Step(board: Board, memory: Memory, feedback: seq<Key>)

  /** One attempt of the automated player: it builds an attempt from its
      memory, the board records it and scores it, and the player learns
      from the score. */
  function AIAttempt(b: Board, m: Memory, draws: seq<Color>): (s: Step)
    requires Fits(m.bestGuess, m.mustInclude, draws) && |m.bestGuess| <= |b.code|
    ensures s.board.code == b.code
    ensures |s.board.attempts| == |b.attempts| + 1
    ensures s.board.attempts[..|b.attempts|] == b.attempts
    ensures s.board.attempts[|b.attempts|] == MakeCode(m, draws).attempt
    ensures Tracked(b) ==> Tracked(s.board)
    ensures s.feedback == Feedback(b.code, s.board.attempts[|b.attempts|])
    ensures |s.feedback| == |m.bestGuess| == |s.memory.bestGuess|
    ensures |s.memory.mustInclude|
         == |MakeCode(m, draws).memory.mustInclude| + Count(s.feedback, White)
    ensures s.memory.mustInclude[..|MakeCode(m, draws).memory.mustInclude|]
         == MakeCode(m, draws).memory.mustInclude
    ensures forall i :: 0 <= i < |s.feedback| && s.feedback[i] == Black
              ==> s.memory.bestGuess[i] == Some(b.code[i])
    ensures forall i :: 0 <= i < |s.feedback| && s.feedback[i] != Black
              ==> s.memory.bestGuess[i] == m.bestGuess[i]
  {
    var t := MakeCode(m, draws);
    var fb := Feedback(b.code, t.attempt);
    var board := Record(b, t.attempt);
    assert board.attempts[|b.attempts|] == t.attempt;
    Step(board, Learn(t.memory, t.attempt, fb), fb)
  }

  /** Across an attempt of the automated player, a consistent memory stays
      consistent, and its pinned positions score black and stay pinned. */
  lemma AIAttemptKeepsConsistent(b: Board, m: Memory, draws: seq<Color>)
    requires Fits(m.bestGuess, m.mustInclude, draws) && Consistent(m, b.code)
    ensures Consistent(AIAttempt(b, m, draws).memory, b.code)
    ensures forall i :: 0 <= i < |m.bestGuess| && m.bestGuess[i].Some? ==>
              && AIAttempt(b, m, draws).feedback[i] == Black
              && AIAttempt(b, m, draws).memory.bestGuess[i] == m.bestGuess[i]
  {
    var t := MakeCode(m, draws);
    MakeCodeKeepsConsistent(m, b.code, draws);
    LearnKeepsConsistent(t.memory, b.code, t.attempt);
  }

  // The program never flushes the automated player's memory: a new round
  // gets a new board but the same player, pins and waiting colours
  // included. The lemmas below show what that does, and what a flush at
  // the start of each round would give instead.

  /** A pin that disagrees with the current secret never scores black and
      is never replaced: only a black key changes a pin. */
  lemma StalePinNeverScoresBlack(b: Board, m: Memory, draws: seq<Color>, i: nat)
    requires Fits(m.bestGuess, m.mustInclude, draws) && |m.bestGuess| <= |b.code|
    requires i < |m.bestGuess| && m.bestGuess[i].Some? && m.bestGuess[i].value != b.code[i]
    ensures AIAttempt(b, m, draws).feedback[i] != Black
    ensures AIAttempt(b, m, draws).memory.bestGuess[i] == m.bestGuess[i]
  {
  }

  /** A fresh player whose draws are the secret breaks it at once, pins
      every position to the secret's colour, and has nothing waiting. */
  lemma BrokenAtOncePinsAll(code: Code)
    requires |code| == CodeLength
    ensures Fits(FlushMemory().bestGuess, FlushMemory().mustInclude, code)
    ensures forall i :: 0 <= i < |code| ==>
              AIAttempt(NewBoard(code), FlushMemory(), code).feedback[i] == Black
    ensures var m := AIAttempt(NewBoard(code), FlushMemory(), code).memory;
            && |m.bestGuess| == |code|
            && (forall i :: 0 <= i < |code| ==> m.bestGuess[i] == Some(code[i]))
            && m.mustInclude == []
  {
    FreshGuessIsDraws(code);
    var s := AIAttempt(NewBoard(code), FlushMemory(), code);
    assert forall i :: 0 <= i < |code| ==> s.feedback[i] == Black by {
      assert s.board.attempts[0] == code;
      AllBlackIffEqual(code, code);
    }
    assert White !in s.feedback;
  }

  /** When every position is pinned to a colour absent from the code and
      nothing waits, the attempt is the pins, it earns no key, and the
      memory is unchanged. */
  lemma AbsentPinsLearnNothing(b: Board, m: Memory, draws: seq<Color>)
    requires Fits(m.bestGuess, m.mustInclude, draws) && |m.bestGuess| == |b.code|
    requires forall i :: 0 <= i < |m.bestGuess| ==>
               m.bestGuess[i].Some? && m.bestGuess[i].value !in b.code
    requires m.mustInclude == []
    ensures forall i :: 0 <= i < |m.bestGuess| ==>
              AIAttempt(b, m, draws).board.attempts[|b.attempts|][i] == m.bestGuess[i].value
    ensures forall i :: 0 <= i < |m.bestGuess| ==> AIAttempt(b, m, draws).feedback[i] == Miss
    ensures AIAttempt(b, m, draws).memory == m
  {
    var t := MakeCode(m, draws);
    assert t.memory.mustInclude == [] by {
      FillKeepsEmpty(m.bestGuess, m.mustInclude, draws);
    }
    var s := AIAttempt(b, m, draws);
    assert s.board.attempts[|b.attempts|] == t.attempt;
    assert forall i :: 0 <= i < |m.bestGuess| ==> s.feedback[i] == Miss by {
      forall i | 0 <= i < |m.bestGuess|
        ensures s.feedback[i] == Miss
      {
        AbsentColourMisses(b.code, t.attempt, i);
      }
    }
    assert s.memory.mustInclude == [] by {
      assert White !in s.feedback;
    }
    assert s.memory.bestGuess == m.bestGuess;
  }

  /** Breaking the code red-red-red-red at the first attempt pins every
      position to red and leaves nothing waiting. */
  lemma SolvedRoundPinsAll()
    ensures Fits(FlushMemory().bestGuess, FlushMemory().mustInclude, Reds())
    ensures PinnedRed(AIAttempt(NewBoard(Reds()), FlushMemory(), Reds()).memory)
  {
    BrokenAtOncePinsAll(Reds());
  }

  /** A player whose memory pins every position to red, facing a fresh
      board whose code holds no red, guesses red-red-red-red whatever it
      draws, earns no key, and learns nothing. */
  lemma PinnedRedRepeats(b: Board, m: Memory, draws: seq<Color>)
    requires PinnedRed(m) && |draws| == CodeLength
    requires |b.code| == CodeLength && b.attempts == [] && Colors.Red !in b.code
    ensures Fits(m.bestGuess, m.mustInclude, draws)
    ensures AIAttempt(b, m, draws).board.attempts == [Reds()]
    ensures AIAttempt(b, m, draws).feedback == [Miss, Miss, Miss, Miss]
    ensures AIAttempt(b, m, draws).memory == m
  {
    NothingWaitingFits(m.bestGuess, draws);
    AbsentPinsLearnNothing(b, m, draws);
    var s := AIAttempt(b, m, draws);
    AllRedIsReds(s.board.attempts[0]);
    AllMissIsFourMisses(s.feedback);
  }

  lemma AllRedIsReds(a: Code)
    requires |a| == CodeLength && forall i :: 0 <= i < |a| ==> a[i] == Colors.Red
    ensures a == Reds()
  {
  }

  lemma AllBlackIsFourBlacks(f: seq<Key>)
    requires |f| == CodeLength && forall i :: 0 <= i < |f| ==> f[i] == Black
    ensures f == [Black, Black, Black, Black]
  {
  }

  lemma AllMissIsFourMisses(f: seq<Key>)
    requires |f| == CodeLength && forall i :: 0 <= i < |f| ==> f[i] == Miss
    ensures f == [Miss, Miss, Miss, Miss]
  {
  }

  /** A player pinned to red everywhere that makes the secret builds
      red-red-red-red whatever it draws and keeps its memory. Rounds swap
      roles, so after breaking red-red-red-red the player sets that same
      secret in the next round. */
  lemma PinnedRedMakesReds(m: Memory, draws: seq<Color>)
    requires PinnedRed(m) && |draws| == CodeLength
    ensures Fits(m.bestGuess, m.mustInclude, draws)
    ensures MakeCode(m, draws).attempt == Reds()
    ensures MakeCode(m, draws).memory == m
  {
    NothingWaitingFits(m.bestGuess, draws);
    FillKeepsEmpty(m.bestGuess, m.mustInclude, draws);
    AllRedIsReds(MakeCode(m, draws).attempt);
  }

  /** A player that broke the code red-red-red-red in round 1 ends it with
      every position pinned to red (SolvedRoundPinsAll). It makes the secret
      of round 2 from that memory (PinnedRedMakesReds), and the human's
      attempts leave its memory alone. Breaking again in round 3 against the
      code green-green-green-green, it guesses red-red-red-red whatever it
      draws, earns no key, and learns nothing, so it does so on every
      attempt of the round. */
  lemma StaleMemoryReplaysOldSecret(m: Memory, draws: seq<Color>)
    requires PinnedRed(m) && |draws| == CodeLength
    ensures Fits(m.bestGuess, m.mustInclude, draws)
    ensures AIAttempt(NewBoard(Greens()), m, draws).board.attempts == [Reds()]
    ensures AIAttempt(NewBoard(Greens()), m, draws).feedback == [Miss, Miss, Miss, Miss]
    ensures AIAttempt(NewBoard(Greens()), m, draws).memory == m
  {
    var b := NewBoard(Greens());
    assert Colors.Red !in b.code by {
      assert forall j :: 0 <= j < |b.code| ==> b.code[j] != Colors.Red;
    }
    PinnedRedRepeats(b, m, draws);
  }

  /** Every position pinned to red, nothing waiting. */
  predicate PinnedRed(m: Memory) {
    && |m.bestGuess| == CodeLength
    && (forall i :: 0 <= i < |m.bestGuess| ==> m.bestGuess[i] == Some(Colors.Red))
    && m.mustInclude == []
  }

  function Reds(): (c: Code)
    ensures |c| == CodeLength && forall i :: 0 <= i < |c| ==> c[i] == Colors.Red
  {
    [Colors.Red, Colors.Red, Colors.Red, Colors.Red]
  }

  function Greens(): (c: Code)
    ensures |c| == CodeLength && forall i :: 0 <= i < |c| ==> c[i] == Colors.Green
  {
    [Colors.Green, Colors.Green, Colors.Green, Colors.Green]
  }

  /** With a flush at the start of the round, the memory is consistent with
      the new secret, and stays so across every attempt of the round
      (AIAttemptKeepsConsistent), so every pin scores black from then on. */
  lemma FlushedRoundConsistent(secret: Code, draws: seq<Color>)
    requires |secret| == CodeLength && |draws| == CodeLength
    ensures Fits(FlushMemory().bestGuess, FlushMemory().mustInclude, draws)
    ensures Consistent(AIAttempt(NewBoard(secret), FlushMemory(), draws).memory, secret)
  {
    FreshGuessIsDraws(draws);
    FreshMemoryConsistent(secret);
    AIAttemptKeepsConsistent(NewBoard(secret), FlushMemory(), draws);
  }

  /** With a flushed memory, the round against green-green-green-green is
      open again: drawing the secret breaks it. */
  lemma FlushedRoundCanSolve()
    ensures Fits(FlushMemory().bestGuess, FlushMemory().mustInclude, Greens())
    ensures AIAttempt(NewBoard(Greens()), FlushMemory(), Greens()).feedback
         == [Black, Black, Black, Black]
  {
    BrokenAtOncePinsAll(Greens());
    AllBlackIsFourBlacks(AIAttempt(NewBoard(Greens()), FlushMemory(), Greens()).feedback);
  }
}

=== FILE: board.dfy ===
/** The board (class `Board`): the secret code, the attempts made so far,
    the guess counter, and the scoring of an attempt against the code. */
module Boards {
  import Colors
  import opened Seqs
  import opened Rules

  type Color = Colors.Color

  /** A code or an attempt: one colour per position. */
  type Code = seq<Color>

  /** One key peg of the feedback: a black key, a white key, or no key
      (the program's `nil`). */
  datatype Key = Black | White | Miss

  /** The positions of `attempt` at which both the attempt and the code
      hold colour `c`. */
  ghost function ExactPositions(code: Code, attempt: Code, c: Color): set<int>
    requires |attempt| <= |code|
  {
    set i | 0 <= i < |attempt| && attempt[i] == c && code[i] == c
  }

  /** Counts, over the whole attempt, the positions where attempt and code
      both hold colour `c`. */
  function ExactMatches(code: Code, attempt: Code, c: Color): (n: nat)
    requires |attempt| <= |code|
    ensures n == |ExactPositions(code, attempt, c)|
  {
    if |attempt| == 0 then 0
    else
      var last := |attempt| - 1;
      var before := attempt[..last];
      assert ExactPositions(code, attempt, c)
          == ExactPositions(code, before, c)
           + (if attempt[last] == c && code[last] == c then {last} else {});
      ExactMatches(code, before, c)
        + (if attempt[last] == c && code[last] == c then 1 else 0)
  }

  /** The key earned by position `i` of the attempt: black when the colours
      agree there; otherwise white when the colour occurs in the code more
      often than it is exactly matched across the whole attempt. */
  function KeyAt(code: Code, attempt: Code, i: nat): (k: Key)
    requires |attempt| <= |code| && i < |attempt|
    ensures k == Black <==> attempt[i] == code[i]
    ensures k == White ==> attempt[i] in code
  {
    var c := attempt[i];
    if c == code[i] then Black
    else if c in code then
      if Count(code, c) > ExactMatches(code, attempt, c) then White else Miss
    else Miss
  }

  /** The feedback for `attempt`, one key per attempt position. The code
      may not be shorter than the attempt: the program would index past
      its end. */
  function Feedback(code: Code, attempt: Code): (fb: seq<Key>)
    requires |attempt| <= |code|
    ensures |fb| == |attempt|
    ensures forall i :: 0 <= i < |fb| ==> (fb[i] == Black <==> attempt[i] == code[i])
    ensures forall i :: 0 <= i < |fb| ==>
              (fb[i] == White <==>
                 && attempt[i] != code[i]
                 && multiset(code)[attempt[i]] > |ExactPositions(code, attempt, attempt[i])|)
  {
    seq(|attempt|, i requires 0 <= i < |attempt| => KeyAt(code, attempt, i))
  }

  /** No more exact matches of a colour than occurrences of it in the code. */
  lemma ExactMatchesBounded(code: Code, attempt: Code, c: Color)
    requires |attempt| <= |code|
    ensures ExactMatches(code, attempt, c) <= Count(code[..|attempt|], c)
    ensures ExactMatches(code, attempt, c) <= Count(code, c)
  {
    var n := |attempt|;
    ExactMatchesBoundedByPrefix(code, attempt, c);
    assert code == code[..n] + code[n..];
    assert multiset(code) == multiset(code[..n]) + multiset(code[n..]);
  }

  /** The induction behind ExactMatchesBounded: exact matches are bounded
      by the occurrences in the part of the code the attempt covers. */
  lemma {:induction false} ExactMatchesBoundedByPrefix(code: Code, attempt: Code, c: Color)
    requires |attempt| <= |code|
    ensures ExactMatches(code, attempt, c) <= Count(code[..|attempt|], c)
    decreases |attempt|
  {
    var n := |attempt|;
    if n > 0 {
      ExactMatchesBoundedByPrefix(code, attempt[..n - 1], c);
      assert code[..n][..n - 1] == code[..n - 1];
    }
  }

  /** A colour that is absent from the code earns no key. */
  lemma AbsentColourMisses(code: Code, attempt: Code, i: nat)
    requires |attempt| <= |code| && i < |attempt|
    requires attempt[i] !in code
    ensures Feedback(code, attempt)[i] == Miss
  {
  }

  /** The white test depends on the colour only, so positions without a
      black key that hold the same colour all receive the same key. */
  lemma SameColourSameKey(code: Code, attempt: Code, i: nat, j: nat)
    requires |attempt| <= |code| && i < |attempt| && j < |attempt|
    requires attempt[i] == attempt[j]
    requires attempt[i] != code[i] && attempt[j] != code[j]
    ensures Feedback(code, attempt)[i] == Feedback(code, attempt)[j]
  {
  }

  /** When every occurrence of `c` in the code is matched by the attempt,
      the exact matches of `c` are as many as its occurrences. */
  lemma {:induction false} AllMatchedCounts(code: Code, attempt: Code, c: Color)
    requires |attempt| == |code|
    requires forall j :: 0 <= j < |code| && code[j] == c ==> attempt[j] == c
    ensures ExactMatches(code, attempt, c) == Count(code, c)
    decreases |code|
  {
    var n := |code|;
    if n > 0 {
      var code', attempt' := code[..n - 1], attempt[..n - 1];
      AllMatchedCounts(code', attempt', c);
      ExactMatchesIgnoresTail(code, attempt', c);
    }
  }

  /** Exact matches only look at the code up to the attempt's length. */
  lemma ExactMatchesIgnoresTail(code: Code, attempt: Code, c: Color)
    requires |attempt| <= |code|
    ensures ExactMatches(code, attempt, c) == ExactMatches(code[..|attempt|], attempt, c)
  {
    assert ExactPositions(code, attempt, c) == ExactPositions(code[..|attempt|], attempt, c);
  }

  /** A white key is earned only by a colour that sits somewhere in the code
      at a position the attempt got wrong. */
  lemma WhiteMeansUnmatchedOccurrence(code: Code, attempt: Code, i: nat)
    requires |attempt| == |code| && i < |attempt|
    ensures Feedback(code, attempt)[i] == White ==>
              exists j :: 0 <= j < |code| && code[j] == attempt[i] && attempt[j] != code[j]
  {
    var c := attempt[i];
    if Feedback(code, attempt)[i] == White
       && forall j :: 0 <= j < |code| && code[j] == c ==> attempt[j] == c
    {
      AllMatchedCounts(code, attempt, c);
      assert false;
    }
  }

  /** An attempt earns four black keys exactly when it is the code. */
  lemma AllBlackIffEqual(code: Code, attempt: Code)
    requires |attempt| == |code|
    ensures (forall i :: 0 <= i < |attempt| ==> Feedback(code, attempt)[i] == Black)
            <==> attempt == code
  {
    var fb := Feedback(code, attempt);
    if forall i :: 0 <= i < |attempt| ==> fb[i] == Black {
      assert forall i :: 0 <= i < |attempt| ==> attempt[i] == code[i];
    }
  }

  /** An attempt that shares no colour with the code earns no key at all. */
  lemma DisjointAllMiss(code: Code, attempt: Code)
    requires |attempt| <= |code|
    requires forall i :: 0 <= i < |attempt| ==> attempt[i] !in code
    ensures forall i :: 0 <= i < |attempt| ==> Feedback(code, attempt)[i] == Miss
  {
  }

  /** The duplicate-colour example of the program's own comment: code
      white-white-black-black, attempt white-white-white-black. */
  lemma DuplicateColourExample()
    ensures Feedback([Colors.White, Colors.White, Colors.Black, Colors.Black],
                     [Colors.White, Colors.White, Colors.White, Colors.Black])
         == [Black, Black, Miss, Black]
  {
    var code := [Colors.White, Colors.White, Colors.Black, Colors.Black];
    var attempt := [Colors.White, Colors.White, Colors.White, Colors.Black];
    assert Count(code, Colors.White) == 2 by {
      assert multiset(code)[Colors.White] == 2;
    }
    assert ExactMatches(code, attempt[..2], Colors.White) == 2;
    assert ExactMatches(code, attempt, Colors.White) == 2 by {
      assert attempt[..3][..2] == attempt[..2];
    }
  }

  /** Code white-white-black-black, attempt white-black-black-black: both
      black pegs of the code are matched exactly, so the second position
      gets nothing. */
  lemma MatchedColourExample()
    ensures Feedback([Colors.White, Colors.White, Colors.Black, Colors.Black],
                     [Colors.White, Colors.Black, Colors.Black, Colors.Black])
         == [Black, Miss, Black, Black]
  {
  }

  /** The white test is a surplus test per colour, not a cap on the number
      of white keys: one white peg in the code earns three white keys. */
  lemma SurplusNotCappedExample()
    ensures Feedback([Colors.White, Colors.Red, Colors.Red, Colors.Red],
                     [Colors.Red, Colors.White, Colors.White, Colors.White])
         == [White, White, White, White]
  {
  }

  /** Colour-by-colour comparison of `c1` with the start of `c2`, folded
      left to right with a running conjunction. */
  function CodesEqual(c1: Code, c2: Code): (r: bool)
    requires |c1| <= |c2|
    ensures r <==> forall i :: 0 <= i < |c1| ==> c1[i] == c2[i]
    ensures r <==> c1 == c2[..|c1|]
  {
    if |c1| == 0 then true
    else
      var last := |c1| - 1;
      CodesEqual(c1[..last], c2) && c1[last] == c2[last]
  }

  /** The board's record of a round: the secret code, the attempts in the
      order they were made, and the number of the next guess. */
  datatype Board = Board(code: Code, attempts: seq<Code>, guesses: int)

  /** A new board holding the code maker's secret: no attempts yet, and
      the counter one ahead of them. */
  function NewBoard(code: Code): (b: Board)
    ensures b.code == code && b.attempts == [] && Tracked(b)
  {
    Board(code, [], 1)
  }

  /** The guess counter is one more than the attempts made. */
  predicate Tracked(b: Board) {
    b.guesses == |b.attempts| + 1
  }

  /** Logging of an attempt: it is appended and the counter advances. */
  function Record(b: Board, attempt: Code): (r: Board)
    ensures r.code == b.code
    ensures |r.attempts| == |b.attempts| + 1
    ensures r.attempts[..|b.attempts|] == b.attempts && r.attempts[|b.attempts|] == attempt
    ensures Tracked(b) ==> Tracked(r)
  {
    b.(attempts := b.attempts + [attempt], guesses := b.guesses + 1)
  }

  /** No attempt is longer than the code, so each can be compared with it. */
  predicate AttemptsFit(b: Board) {
    forall a :: a in b.attempts ==> |a| <= |b.code|
  }

  /** The code breaker has won once some attempt agrees with the code at
      each of its positions, that is, once some attempt is the code. */
  function BreakerVictory(b: Board): (r: bool)
    requires AttemptsFit(b)
    ensures r <==> exists a :: a in b.attempts && a == b.code[..|a|]
    ensures (forall a :: a in b.attempts ==> |a| == |b.code|) ==> (r <==> b.code in b.attempts)
  {
    assert b.code[..|b.code|] == b.code;
    exists i :: 0 <= i < |b.attempts| && CodesEqual(b.attempts[i], b.code)
  }

  /** The code maker has won once the counter passes the allowance, that
      is, once the breaker has used every allowed attempt. */
  function MakerVictory(b: Board): (r: bool)
    ensures Tracked(b) ==> (r <==> |b.attempts| >= GuessesAllowed)
  {
    b.guesses > GuessesAllowed
  }
}

=== FILE: colors.dfy ===
/** Peg colours and the case-insensitive lookup of a colour by its name
    (class `Color`). A peg carries nothing but its colour, so pegs are
    represented by their colour throughout the model. */
module Colors {
  import opened Wrappers

  datatype Color = Red | Green | Blue | White | Black | Yellow

  /** The palette, in the order of the program's colour constant. */
  const Palette: seq<Color> := [Red, Green, Blue, White, Black, Yellow]

  /** The name of a colour, as its symbol prints. */
  function Name(c: Color): (name: string) {
    match c
    case Red => "red"
    case Green => "green"
    case Blue => "blue"
    case White => "white"
    case Black => "black"
    case Yellow => "yellow"
  }

  /** Lower-casing of one character, as far as it can matter when the
      result is compared with a colour name: the ASCII capitals, and the
      Kelvin sign, whose lower-case form is the letter k. Every other
      character lower-cases to something that is not a letter of any
      colour name, so it is left as it is. */
  function LowerChar(ch: char): (lower: char) {
    if 'A' <= ch <= 'Z' then (ch as int + 32) as char
    else if ch == '\U{212A}' then 'k'
    else ch
  }

  function Lower(s: string): (r: string)
    ensures |r| == |s|
  {
    seq(|s|, i requires 0 <= i < |s| => LowerChar(s[i]))
  }

  /** The first colour of `colors` whose name is `name`. */
  function Select(colors: seq<Color>, name: string): (r: Option<Color>)
    ensures r.Some? ==> r.value in colors && Name(r.value) == name
    ensures r.None? <==> forall c :: c in colors ==> Name(c) != name
  {
    if |colors| == 0 then None
    else if Name(colors[0]) == name then Some(colors[0])
    else Select(colors[1..], name)
  }

  /** Looks a colour up by its name, ignoring case; `None` where the
      program raises `ArgumentError` for an unknown name. */
  function FromString(s: string): (r: Option<Color>)
    ensures r.Some? <==> exists c :: Name(c) == Lower(s)
    ensures forall c :: r == Some(c) <==> Name(c) == Lower(s)
  {
    NamesDistinct();
    Select(Palette, Lower(s))
  }

  /** No two colours share a name, so the lookup has at most one answer. */
  lemma NamesDistinct()
    ensures forall c, d :: Name(c) == Name(d) ==> c == d
  {
  }

  /** A colour's own name, in any mix of cases, finds that colour. */
  lemma {:induction false} FromStringOfName(c: Color, s: string)
    requires |s| == |Name(c)|
    requires forall i :: 0 <= i < |s| ==> LowerChar(s[i]) == Name(c)[i]
    ensures FromString(s) == Some(c)
  {
    assert Lower(s) == Name(c);
  }

  lemma FromStringUpperCase()
    ensures FromString("RED") == Some(Red)
  {
    FromStringOfName(Red, "RED");
  }

  lemma FromStringMixedCase()
    ensures FromString("bLaCk") == Some(Black)
  {
    FromStringOfName(Black, "bLaCk");
  }

  /** The Kelvin sign lower-cases to k, so it spells "black" too. */
  lemma FromStringKelvinSign()
    ensures FromString("blac\U{212A}") == Some(Black)
  {
    FromStringOfName(Black, "blac\U{212A}");
  }

  /** A name outside the palette is refused. */
  lemma FromStringUnknown()
    ensures FromString("purple") == None
  {
    assert Lower("purple")[0] == 'p';
  }
}

=== FILE: game.dfy ===
/** The decision of whether the match is over (`Game#game_victory?`). */
module Game {

  /** Who has won the match, if anyone. */
  datatype Verdict = HumanWins | AIWins | Draw | Undecided

  /** The verdict after `rounds` rounds were agreed on and each player has
      won the given number of rounds. The program halves the round count
      with integer division, which rounds down; so does `/` here, the
      divisor being positive. */
  function GameVictory(human: nat, ai: nat, rounds: int): (v: Verdict)
    ensures v == HumanWins <==> 2 * human > rounds
    ensures v == AIWins <==> 2 * human <= rounds && 2 * ai > rounds
    ensures v == Draw <==> 2 * human <= rounds && 2 * ai <= rounds && human + ai == rounds
  {
    if human > rounds / 2 then HumanWins
    else if ai > rounds / 2 then AIWins
    else if human + ai == rounds then Draw
    else Undecided
  }

  /** Whether the match is over, the boolean the program returns. */
  predicate IsOver(v: Verdict) {
    v != Undecided
  }

  /** A draw needs an even number of rounds split evenly. */
  lemma DrawIsEvenSplit(human: nat, ai: nat, rounds: int)
    requires GameVictory(human, ai, rounds) == Draw
    ensures human == ai && rounds == 2 * human
  {
  }

  /** Once every round has been played, the match is over. */
  lemma AllRoundsPlayedIsOver(human: nat, ai: nat, rounds: int)
    requires human + ai == rounds
    ensures IsOver(GameVictory(human, ai, rounds))
  {
  }

  /** The match is over before every round has been played only when one
      player already holds a strict majority of the rounds. */
  lemma EarlyEndNeedsMajority(human: nat, ai: nat, rounds: int)
    requires human + ai < rounds
    ensures IsOver(GameVictory(human, ai, rounds)) <==> 2 * human > rounds || 2 * ai > rounds
  {
  }
}

=== FILE: rules.dfy ===
/** The fixed parameters of the game (class `Game`). */
module Rules {

  /** Number of pegs in a code or an attempt. */
  const CodeLength: nat := 4

  /** Attempts the code breaker may make before the code maker wins. */
  const GuessesAllowed: nat := 12
}

=== FILE: seqs.dfy ===
/** Sequence helpers shared by the board and the automated player:
    counting occurrences (Ruby's `Array#count`) and taking one element out
    (what `shuffle!.pop` does to the multiset of an array). */
module Seqs {

  /** Number of occurrences of `x` in `s`, accumulated left to right. */
  function Count<T(==)>(s: seq<T>, x: T): (n: nat)
    ensures n == multiset(s)[x]
    ensures n <= |s|
  {
    if |s| == 0 then 0
    else
      var last := |s| - 1;
      assert s == s[..last] + [s[last]];
      Count(s[..last], x) + (if s[last] == x then 1 else 0)
  }

  /** Removes the first occurrence of `x` from `s`. */
  function RemoveOne<T(==)>(s: seq<T>, x: T): (r: seq<T>)
    requires x in s
    ensures |r| == |s| - 1
    ensures multiset(r) == multiset(s) - multiset{x}
  {
    assert s == [s[0]] + s[1..];
    if s[0] == x then s[1..]
    else [s[0]] + RemoveOne(s[1..], x)
  }

  function Min(a: int, b: int): (m: int) {
    if a <= b then a else b
  }
}

=== FILE: wrappers.dfy ===
/** The optional-value datatype used where the program returns `nil` or
    raises on a failed lookup. */
module Wrappers {

  datatype Option<+T> = None | Some(value: T)
}
